=== FILE: README.md ===
# mdathome edge node — a Dafny model

This project models the decision logic of the mdathome edge node (Go). The node
is a cache in a content-delivery network. It registers with a control plane,
which assigns it an upstream image server and a TLS identity. It then serves
image requests from a local disk cache, fetching misses from the image server.
It re-registers periodically. On shutdown it drains traffic before exiting.

Everything is modelled as pure functions over immutable values:

- the disk cache is a `map<string, seq<byte>>`;
- the image server is a function from URL to `Option<seq<byte>>`;
- time is an input: whole milliseconds for a request, and real seconds read off a clock for the drain wait;
- the interleaving of goroutines is a sequence of events.

| module | file | models |
|---|---|---|
| `Wrappers` | wrappers.dfy | `Option` and `Result` |
| `PathRules` | path_rules.dfy | the three path checks and the cache key (main.go:139-151, 304-305) |
| `Referer` | referer.dfy | Referer normalisation (main.go:153-162) |
| `RequestHandler` | request_handler.dfy | the If-Modified-Since shortcut and hit/miss dispatch (main.go:131-230) |
| `Settings` | settings.dfy | client settings and their validation (internal/mdathome/utils.go:28-54) |
| `ControlPlane` | control_plane.dfy | ping payload, ping reply handling, refresh rule (main.go:62-105, internal/mdathome/utils.go:94-98) |
| `Lifecycle` | lifecycle.dfy | refresh loop, shutdown sequence and drain wait (internal/mdathome/utils.go:79-142, main.go:108-128, 232-277) |
| `Metrics` | metrics.dfy | per-class request count and elapsed totals (internal/mdathome/metrics.go) |

The regular expressions of the source become character predicates. Where a
predicate is not already a plain quantifier, a reference definition follows
Go's regexp semantics and a lemma proves the two agree. For example, the
filename pattern has no start anchor, and Go's `$` means end of text. The
drain loop appears in two copies in the source: 30 s idle in the mdathome
package and 15 s in main.go. It is modelled once, with the idle threshold as
a parameter.

## Where the code departs from its documented behaviour (the model follows the code)

- A failed upstream fetch is `log.Panicf` (main.go:187-189). The request's connection is dropped, no error status is sent, and no state changes (`Dropped`).
- main.go's handler never records metrics. The mdathome handler that calls `recordRequest` is not part of this model.
- In main.go a failed `/stop` request is `log.Fatalf` (main.go:252-254). The process exits with status 1 and never drains.
- main.go's `loadClientSettings` (main.go:46-59) does not check the secret or the cache directory. The checks exist only in the mdathome package.
- In main.go's refresh loop, a failed re-ping panics and kills the process. An empty image server is fatal there too. The mdathome loop keeps the old assignment instead.
- main.go's `pingServer` decodes the reply *into* the held assignment (main.go:93). Fields missing from the reply keep their old values, at every depth, so the result can mix the old and the new assignment, down to a new certificate with the old private key. The mdathome worker swaps the whole value (internal/mdathome/utils.go:97).
- The filename check accepts any stem that ends in an ASCII letter or digit, of any length and containing any characters. The documentation calls the stem "short alphanumeric".
- `initMetrics` ranges over `[3]string{RequestHit, RequestMiss}`. That array has a third element, `""`, so a third counter pair is registered under the empty type.

## Model

| member | source | states |
|---|---|---|
| `PathRules.IsImageType` | main.go:139-142 | the image type is exactly "data" or "data-saver"; anything else is a 400 |
| `PathRules.IsChapterHash` | main.go:143-146 | `^[0-9a-f]{32}$`, anchored at both ends: exactly 32 characters from `0-9a-f` |
| `PathRules.CheckChapterHash` | main.go:143-146 | accepts exactly the strings of 32 characters drawn from `0-9a-f` |
| `PathRules.UpperHexRejected` | main.go:143 | a hash containing an upper-case hex digit is rejected |
| `PathRules.IsImageFilename` | main.go:147-150 | the filename ends in "." plus one of jpg, jpeg, png, gif, with an ASCII letter or digit before the dot; `FilenameCheckIsRegex` proves this is what the regex accepts |
| `PathRules.FilenameCheckIsRegex` | main.go:147-150 | the suffix check accepts a filename iff the unanchored regex `[a-zA-Z0-9]{1,4}\.(jpg\|jpeg\|png\|gif)$` matches it somewhere |
| `PathRules.LongStemAccepted` | main.go:147 | without a start anchor, `{1,4}` bounds nothing: any non-empty alphanumeric stem of any length plus ".png" is accepted |
| `PathRules.UpperCaseExtensionRejected` | main.go:147 | extensions are case-sensitive: "X.JPG" is rejected |
| `PathRules.SamplePathAccepted` | main.go:139-150 | a typical path, `data / 0123…cdef / x1.jpg`, passes all three checks |
| `PathRules.IsValidPath` | main.go:139-150 | a path is served only if all three checks pass |
| `PathRules.CacheKey` | main.go:151 | the sanitized URL "/" type "/" hash "/" filename, used as cache key and upstream path; `KeyLayout` and `CacheKeyInjective` state its layout and canonicity |
| `PathRules.RoutesShareKey` | main.go:304-305 | both routes give the same cache key; the request token is ignored |
| `PathRules.KeyLayout` | main.go:151 | the key is "/" type "/" hash "/" filename, each token at its fixed offset |
| `PathRules.CacheKeyInjective` | main.go:151 | two valid paths with the same key are the same path, so the key is canonical |
| `Referer.LeftmostStart` | main.go:159-160 | finds the first position where the chapter-URL pattern can start, or proves there is none |
| `Referer.DigitRunEnd` | main.go:159 | greedy `[0-9]+`: ends at the first non-digit or at the end of the text |
| `Referer.FindString` | main.go:159-160 | Go's `FindString`: the leftmost greedy match or ""; `FindStringIsLeftmostGreedy` proves it against the reference match |
| `Referer.FindStringIsLeftmostGreedy` | main.go:159-160 | `FindString` is non-empty iff a match exists, and is then the leftmost match with the longest digit run |
| `Referer.Normalize` | main.go:154-162 | an empty header becomes "None"; with no match the header is unchanged; otherwise it is replaced by the leftmost greedy match |
| `Referer.PlaceholderHasNoMatch` | main.go:154-160 | the "None" placeholder can never match the pattern |
| `Referer.MatchIsFixedPoint` | main.go:159-161 | a match, normalised on its own, is left unchanged |
| `Referer.NormalizeIdempotent` | main.go:154-162 | normalising twice gives the same result as normalising once |
| `RequestHandler.Received` | main.go:198-199 | the bytes through the tee are the whole body after a complete copy, and a prefix of it after an interrupted one |
| `RequestHandler.MissStoreAsWritten` | main.go:198-202 | as written: the tee buffer is stored under the key (a prefix of the body) even when the copy stopped early |
| `RequestHandler.TruncatedBodyIsCached` | main.go:199-202 | a copy interrupted after 1 of 3 bytes leaves a 1-byte entry in the cache |
| `RequestHandler.AsWrittenBreaksCoherence` | main.go:198-202 | the as-written store can turn a cache that agrees with the origin into one that does not |
| `RequestHandler.MissStore` | main.go:198-202 | corrected store: only a completely copied body is committed; an interrupted copy leaves the cache unchanged; other keys never change |
| `RequestHandler.Handle` | main.go:131-230 | (corrected store) 400 iff a path check fails, with no I/O, no state change and the Referer untouched. A valid path normalises the Referer. A valid path with If-Modified-Since gets 304, with no headers, I/O or state change. Every other request starts with a cache lookup of its key |
| `RequestHandler.HitServesCachedBytes` | main.go:203-224 | on a hit: X-Cache HIT, the cached bytes served, the cache unchanged, the origin not asked, the last-request time set |
| `RequestHandler.MissFetchesAndStores` | main.go:180-202 | after a complete copy, on a miss: X-Cache MISS, fetch of image server + key, the stored bytes equal the served bytes equal the origin's body, other keys unchanged |
| `RequestHandler.FailedFetchChangesNothing` | main.go:186-189 | a failed fetch drops the connection and leaves cache and last-request time unchanged |
| `RequestHandler.MissThenHit` | main.go:180-221 | a miss followed by the same request on either route is a HIT serving the identical bytes without contacting the origin |
| `RequestHandler.HandlePreservesCoherence` | main.go:180-224 | (corrected store) if every cached entry is the origin's body for its key, that stays true after any request |
| `RequestHandler.CompleteRepliesAgreeWithOrigin` | main.go:180-221 | (corrected store) with a coherent cache, every complete 200 reply carries the origin's body, hit or miss, so repeated requests for one key all get the same bytes |
| `Settings.Validate` | internal/mdathome/utils.go:43-50 | fails with EmptySecret if the secret is empty (checked first), else with EmptyCacheDirectory if the directory is empty, else accepts the settings unchanged |
| `Settings.Load` | internal/mdathome/utils.go:28-54 | unreadable or undecodable files are fatal; decoded settings succeed iff secret and cache directory are non-empty |
| `Settings.DefaultsNeedSecret` | main.go:26-34 | main.go's default values have an empty secret, so the validating loader of internal/mdathome/utils.go:44 refuses a file that leaves them in place; main.go's own loader accepts them |
| `ControlPlane.GoDiv` | main.go:68 | Go integer division truncates toward zero, for either sign |
| `ControlPlane.PingPayload` | main.go:64-71 | secret and port copied; disk space is exactly MaxCacheSizeInMebibytes·1048576; network speed is kbps·1000/8 rounded toward zero; build version 13; no TLS timestamp |
| `ControlPlane.DefaultPayload` | main.go:64-71 | with the default settings the payload announces 1073741824 bytes and 1250000 bytes/s |
| `ControlPlane.Overlay` | main.go:93 | decoding into the held value: each field present in the reply replaces the held one, each absent field keeps the old value; the two fields of the TLS object are overlaid one by one |
| `ControlPlane.PingServer` | main.go:75-104 | no reply is fatal; otherwise succeeds iff the overlaid assignment has a non-empty image server, and returns it |
| `ControlPlane.FirstPingNeedsImageServer` | main.go:99-101 | on the first ping, success iff the reply carries a non-empty image server |
| `ControlPlane.OverlayMasksMissingImageServer` | main.go:93-101 | on a re-ping, a reply that omits the image server passes the check with the old server |
| `ControlPlane.OverlayCanMix` | main.go:93 | the overlay can yield a value that is neither the old nor the new assignment: a new server with the old TLS bundle, or a new certificate with the old private key |
| `ControlPlane.FullReplyIsSwap` | main.go:93 | a reply carrying every field overlays to exactly that assignment |
| `ControlPlane.Refresh` | internal/mdathome/utils.go:95-98 | a nil ping keeps the held assignment; a successful one replaces it whole; the result is never a mix |
| `ControlPlane.RefreshIsFullOverlay` | internal/mdathome/utils.go:95-98 | a successful refresh equals main.go's overlay of a reply carrying every field, so the two copies differ only on partial replies |
| `Lifecycle.CacheConfigOf` | internal/mdathome/utils.go:90-92 | the cache limit is exactly MaxCacheSizeInMebibytes MiB in bytes; scan interval and refresh age pass through |
| `Lifecycle.Tick` | internal/mdathome/utils.go:85-101 | a failed settings load exits with status 1 and changes nothing else. Otherwise it installs the settings, pushes the cache limits, keeps the assignment on a nil ping and swaps it on success |
| `Lifecycle.MainTick` | main.go:113-127 | the main.go tick: no validation, the cache limit exactly MaxCacheSizeInMebibytes·1048576, refresh age not pushed, the reply overlaid, a failed ping panics (status 2), an empty image server exits with status 1 |
| `Lifecycle.TickKeepsLimitsInStep` | internal/mdathome/utils.go:85-92 | a tick keeps the cache limits equal to those derived from the held settings, whether its load fails or succeeds |
| `Lifecycle.RunKeepsLimitsInStep` | internal/mdathome/utils.go:84-102 | over any schedule of ticks and signals, the cache limits stay those derived from the held settings |
| `Lifecycle.Step` | internal/mdathome/utils.go:84-117 | a tick begins only while running; the signal clears running; after an exit nothing changes |
| `Lifecycle.StoppedStaysPut` | internal/mdathome/utils.go:84 | once running is false, no further event changes the state: no tick begins |
| `Lifecycle.NoTickAfterSignal` | internal/mdathome/utils.go:84-117 | whatever events follow a signal, the state stays as it was at the signal |
| `Lifecycle.TicksBounded` | internal/mdathome/utils.go:84-102 | ticks begun never exceed the tick events (`TickDue`) delivered; signals begin none |
| `Lifecycle.IdleThreshold` | internal/mdathome/utils.go:125 | the drain is complete after 30 s without a request in the mdathome package, 15 s in main.go (main.go:260) |
| `Lifecycle.Drain` | internal/mdathome/utils.go:122-137 | the number of one-second sleeps is the first check at which the node has been idle for the threshold or strictly more than the budget has elapsed since the wait began. Given that each sleep lasts at least a second, it is at most GracefulShutdownInSeconds+1, and at most GracefulShutdownInSeconds when each check also takes time. It is zero when already idle. Giving up happens only past the budget |
| `Lifecycle.QuietDrainSleeps` | internal/mdathome/utils.go:124-137 | with no new request, exact one-second sleeps and a fixed sub-second delay per check, the drain sleeps the whole seconds missing to the threshold, capped by the budget |
| `Lifecycle.ZeroBudgetNeverSleeps` | internal/mdathome/utils.go:129-132 | with a budget of 0 the first check already gives up, so the drain never sleeps |
| `Lifecycle.Shutdown` | internal/mdathome/utils.go:111-141 | clear running, then deregister, then one-second sleeps until the drain's first stop (idle for the threshold, or strictly past the budget; at most budget+1, at most budget when checks take time), then exit 0. main.go's copy (main.go:238-276) instead exits 1 right after a failed /stop |
| `Metrics.RegisterAll` | internal/mdathome/metrics.go:19-34 | storing into a nil map panics; into a made map, every type gets zero counters and other keys are kept |
| `Metrics.InitMetricsAsWritten` | internal/mdathome/metrics.go:16-20 | as written, initMetrics panics on its first store |
| `Metrics.InitMetrics` | internal/mdathome/metrics.go:18-35 | with the map made, the keys are exactly "HIT", "MISS" and "", all at zero |
| `Metrics.ClassOf` | internal/mdathome/metrics.go:38-41 | a hit is recorded as "HIT", anything else as "MISS" |
| `Metrics.Record` | internal/mdathome/metrics.go:37-46 | a hit adds exactly 1 request and `elapsed` time to HIT and leaves MISS alone; a miss does the same for MISS; no other key changes |
| `Metrics.RecordAll` | internal/mdathome/metrics.go:37-46 | recording any sequence keeps the key set and both classes present |
| `Metrics.RecordAllMonotone` | internal/mdathome/metrics.go:44-45 | counts and elapsed totals never decrease |
| `Metrics.RecordCommutes` | internal/mdathome/metrics.go:44-45 | two records in either order give the same totals |
| `Metrics.RecordFirstIsRecordLast` | internal/mdathome/metrics.go:44-45 | a sample recorded first gives the same totals as recorded last |
| `Metrics.RecordAllOrderIndependent` | internal/mdathome/metrics.go:44-45 | the final totals depend only on the multiset of samples, not their order |
| `Metrics.HitAndMissExample` | internal/mdathome/metrics.go:37-46 | after init, a 5 ms hit and a 40 ms miss give HIT{1,5}, MISS{1,40} and "" at zero |

## Findings

| source | as written | input that shows it | evidently intended | confidence | as-written member | corrected member |
|---|---|---|---|---|---|---|
| main.go:198-202 | the error of `io.Copy` is ignored; the tee buffer is stored even when the copy stopped early | a body of 3 bytes whose copy is cut after 1 byte (client disconnect or upstream read error): the cache keeps the 1-byte prefix, and every later hit serves it | commit only a completely copied body | medium; not executed | `RequestHandler.MissStoreAsWritten` | `RequestHandler.MissStore` |
| internal/mdathome/metrics.go:16-20 | `counters` is declared but never made, and `initMetrics` stores into it | any call of `initMetrics`: assignment to an entry of a nil map panics | make the map before filling it | high within the files shown (other files of the package could make the map); not executed | `Metrics.InitMetricsAsWritten` | `Metrics.InitMetrics` |

`RequestHandler.Handle` uses the corrected store. `Metrics.RecordAll` and
`Metrics.HitAndMissExample` start from the corrected `InitMetrics`.

## Left out

- HTTP serving, gorilla/mux routing and response-writer mechanics: I/O. A reply is a status, a header map and a body. Headers not set by the handler are not modelled.
- `X-Time-Taken` and the elapsed-time log lines: they read the wall clock.
- Log output, including the slice `response[:tlsIndex]` (main.go:89-90). It panics when the reply lacks `"tls"`, but only feeds a log line.
- The retrying HTTP client's policy (4 retries, 15 s timeout; main.go:311-314). It is a foreign library. The fetch is a parameter that either yields a body or fails.
- The status code of the upstream response. The source never inspects it, so whatever body the fetch yields is served and stored.
- TLS key-pair parsing, the listener and the startup sequence of `main` (main.go:279-334). These are foreign code and process setup. The first ping is covered by `ControlPlane.PingServer` applied to `NoAssignment`.
- settings.json reading and writing, `saveClientSettings`, log-file setup and `prefixWriter`: I/O. The file is seen as the complete record it decodes to, so the overlay of a partial JSON file on the previous settings is not modelled.
- `checkClientVersion`: a network call and a sleep.
- `backendPing` and `backendShutdown` are not part of this model. Their results are inputs: `Option<ServerResponse>`, and nothing for the stop.
- Signals, goroutines, `os.Exit` and the unsynchronised globals: concurrency. Events are interleaved one at a time, and an exit is a status in the state.
- The disk cache's eviction and scanning, and Prometheus registration: external engines. The cache is a map and the counters are naturals.
- Floating-point time. Elapsed time per request is whole milliseconds; the drain compares exact real seconds, not their `float64` rounding.
- `Lifecycle.Drain`: each check reads the clock once, where the source reads it twice (idle time, then time since shutdown). The two readings are taken as one instant.
- `ControlPlane.PingPayload`: does not model the wrap-around of Go's `int` in `MaxCacheSizeInMebibytes*1024*1024` (main.go:67, 119; internal/mdathome/utils.go:90) or `MaxKilobitsPerSecond*1000`. The model assumes a 64-bit target, where these wrap only beyond 2^43 MiB or about 9·10^15 kbps. On a 32-bit target they wrap from 2048 MiB and from about 2.1·10^6 kbps.
- `Lifecycle.CacheConfigOf`: does not model the wrap-around of the cache limit. The same 64-bit assumption applies; on a 32-bit target the limit wraps from 2048 MiB.
- `Metrics.Record`: elapsed time is a natural, so a negative sample cannot be recorded. The source's Prometheus counter panics on a negative `Add`.

=== FILE: control_plane.dfy ===
/**
  The control-plane client: the registration payload (main.go:62-71), the
  handling of the ping reply (main.go:92-104) and the refresh rule of the
  background worker (internal/mdathome/utils.go:94-98).  The HTTP exchange
  itself is I/O: its outcome is an input.
 */
module ControlPlane {
  import opened Wrappers
  import opened Settings

  const BuildVersion: int := 13
  const BytesPerMebibyte: int := 1024 * 1024

  /** The JSON body posted to /ping. */
  datatype ServerSettings = ServerSettings(
    secret: string,
    port: int,
    diskSpace: int,
    networkSpeed: int,
    buildVersion: int,
    tlsCreatedAt: Option<string>)

  /** Go's `/` on integers: the quotient truncated toward zero. */
  function GoDiv(a: int, b: int): (q: int)
    requires b > 0
    ensures 0 <= a ==> q * b <= a < q * b + b
    ensures a < 0 ==> q * b - b < a <= q * b
  {
    if a >= 0 then a / b else -((-a) / b)
  }

  /** The registration payload built from the current settings. */
  function PingPayload(s: ClientSettings): (p: ServerSettings)
    ensures p.secret == s.clientSecret && p.port == s.clientPort
    ensures p.diskSpace == s.maxCacheSizeInMebibytes * BytesPerMebibyte
    // bytes per second: kilobits * 1000 / 8, rounded toward zero
    ensures s.maxKilobitsPerSecond >= 0 ==>
      0 <= 8 * p.networkSpeed <= 1000 * s.maxKilobitsPerSecond < 8 * p.networkSpeed + 8
    ensures s.maxKilobitsPerSecond < 0 ==>
      8 * p.networkSpeed - 8 < 1000 * s.maxKilobitsPerSecond <= 8 * p.networkSpeed <= 0
    ensures p.buildVersion == 13 && p.tlsCreatedAt.None?
  {
    ServerSettings(
      secret := s.clientSecret,
      port := s.clientPort,
      diskSpace := s.maxCacheSizeInMebibytes * 1024 * 1024,
      networkSpeed := GoDiv(s.maxKilobitsPerSecond * 1000, 8),
      buildVersion := BuildVersion,
      tlsCreatedAt := None)
  }

  /** With the default settings the node announces 1 GiB of disk and 1 250 000 bytes per second. */
  lemma DefaultPayload()
    ensures PingPayload(DefaultSettings).diskSpace == 1073741824
    ensures PingPayload(DefaultSettings).networkSpeed == 1250000
  {
  }

  datatype TlsBundle = TlsBundle(certificate: string, privateKey: string)

  /** The assignment received from the control plane (ServerResponse). */
  datatype ServerResponse = ServerResponse(imageServer: string, tls: TlsBundle)

  /** Go's zero value of the assignment, held before the first ping. */
  const NoAssignment: ServerResponse := ServerResponse("", TlsBundle("", ""))

  /**
    A decoded ping reply: each field is present in the JSON or absent.  The
    "tls" object is decoded into the held bundle field by field, so its two
    fields are present or absent independently.  A reply whose text has no
    "tls" at all panics while being logged, before it is decoded; a reply
    with `"tls":{}` or `"tls":null` has neither field.
   */
  datatype PingReply = PingReply(imageServer: Option<string>, certificate: Option<string>, privateKey: Option<string>)

  /** The value held after decoding: the reply's field when present, the held one otherwise. */
  function Pick(present: Option<string>, held: string): string {
    if present.Some? then present.value else held
  }

  /** `json.Unmarshal` into the held value: present fields overwrite, absent fields keep the old value, at every depth. */
  function Overlay(held: ServerResponse, reply: PingReply): (r: ServerResponse)
    ensures reply.imageServer.Some? ==> r.imageServer == reply.imageServer.value
    ensures reply.imageServer.None? ==> r.imageServer == held.imageServer
    ensures reply.certificate.Some? ==> r.tls.certificate == reply.certificate.value
    ensures reply.certificate.None? ==> r.tls.certificate == held.tls.certificate
    ensures reply.privateKey.Some? ==> r.tls.privateKey == reply.privateKey.value
    ensures reply.privateKey.None? ==> r.tls.privateKey == held.tls.privateKey
  {
    ServerResponse(
      Pick(reply.imageServer, held.imageServer),
      TlsBundle(Pick(reply.certificate, held.tls.certificate), Pick(reply.privateKey, held.tls.privateKey)))
  }

  datatype PingFailure =
    | ControlPlaneUnreachable  // log.Panicf on a failed POST, read or decode
    | EmptyImageServer         // log.Fatalf

  /** pingServer of main.go: overlay the reply on the held assignment, then insist on an image server. */
  function PingServer(held: ServerResponse, reply: Option<PingReply>): (r: Result<ServerResponse, PingFailure>)
    ensures reply.None? ==> r == Failure(ControlPlaneUnreachable)
    ensures r.Success? <==> reply.Some? && Overlay(held, reply.value).imageServer != ""
    ensures r.Success? ==> r.value == Overlay(held, reply.value) && r.value.imageServer != ""
  {
    match reply
    case None => Failure(ControlPlaneUnreachable)
    case Some(rep) =>
      var assignment := Overlay(held, rep);
      if assignment.imageServer == "" then Failure(EmptyImageServer) else Success(assignment)
  }

  /** On the first ping nothing is held, so a reply without an image server (absent or empty) is fatal. */
  lemma FirstPingNeedsImageServer(reply: PingReply)
    ensures PingServer(NoAssignment, Some(reply)).Success? <==>
      reply.imageServer.Some? && reply.imageServer.value != ""
  {
  }

  /** Once an image server is held, a reply that omits the field passes the check with the old server. */
  lemma OverlayMasksMissingImageServer(held: ServerResponse, certificate: Option<string>, privateKey: Option<string>)
    requires held.imageServer != ""
    ensures var r := PingServer(held, Some(PingReply(None, certificate, privateKey)));
      r.Success? && r.value.imageServer == held.imageServer
  {
  }

  /**
    The overlay can produce a value that is neither the old assignment nor the
    new one: a new server with the old TLS bundle, or, inside the bundle, a new
    certificate with the old private key.
   */
  lemma OverlayCanMix()
    ensures var held := ServerResponse("https://a", TlsBundle("c1", "k1"));
      var r := Overlay(held, PingReply(Some("https://b"), None, None));
      r != held && r.imageServer == "https://b" && r.tls == held.tls
    ensures var held := ServerResponse("https://a", TlsBundle("c1", "k1"));
      var r := Overlay(held, PingReply(Some("https://b"), Some("c2"), None));
      r.imageServer == "https://b" && r.tls == TlsBundle("c2", "k1")
  {
  }

  /** A reply carrying every field overlays to exactly that value: the overlay then is a whole swap. */
  lemma FullReplyIsSwap(held: ServerResponse, a: ServerResponse)
    ensures Overlay(held, PingReply(Some(a.imageServer), Some(a.tls.certificate), Some(a.tls.privateKey))) == a
  {
  }

  /**
    The refresh rule of the background worker: a failed ping (nil) keeps the
    held assignment, a successful one replaces it as a whole value.  The
    result is always one complete assignment, never a mix of two.
   */
  function Refresh(held: ServerResponse, pinged: Option<ServerResponse>): (r: ServerResponse)
    ensures pinged.None? ==> r == held
    ensures pinged.Some? ==> r == pinged.value
    ensures r == held || (pinged.Some? && r == pinged.value)
  {
    match pinged
    case None => held
    case Some(a) => a
  }

  /**
    A successful refresh is what the overlay of main.go yields for a reply
    carrying every field; the two copies differ only on partial replies.
   */
  lemma RefreshIsFullOverlay(held: ServerResponse, a: ServerResponse)
    ensures Refresh(held, Some(a)) == Overlay(held, PingReply(Some(a.imageServer), Some(a.tls.certificate), Some(a.tls.privateKey)))
  {
    FullReplyIsSwap(held, a);
  }
}

=== FILE: lifecycle.dfy ===
/**
  The lifecycle coordinator as a sequential state machine: the background
  refresh loop gated by `running` (internal/mdathome/utils.go:79-103, and the
  older loop of main.go:108-128), the shutdown sequence and its drain wait
  (internal/mdathome/utils.go:105-142 with an idle threshold of 30 s,
  main.go:232-277 with 15 s).  The drain reads time as real seconds;
  concurrent goroutines are interleaved one event at a time.
 */
module Lifecycle {
  import opened Wrappers
  import opened Settings
  import ControlPlane

  /** The limits pushed to the disk cache on every tick. */
  datatype CacheConfig = CacheConfig(limitBytes: int, scanIntervalSeconds: int, refreshAgeSeconds: int)

  /** The cache limits a tick derives from freshly loaded settings (utils.go:90-92). */
  function CacheConfigOf(s: ClientSettings): (c: CacheConfig)
    ensures c.limitBytes == s.maxCacheSizeInMebibytes * ControlPlane.BytesPerMebibyte
    ensures c.scanIntervalSeconds == s.cacheScanIntervalInSeconds
    ensures c.refreshAgeSeconds == s.cacheRefreshAgeInSeconds
  {
    CacheConfig(s.maxCacheSizeInMebibytes * 1024 * 1024, s.cacheScanIntervalInSeconds, s.cacheRefreshAgeInSeconds)
  }

  datatype Status = Live | Exited(code: int)

  /** Process-wide state owned by the coordinator. `ticks` counts refresh ticks begun. */
  datatype Coordinator = Coordinator(
    running: bool,
    status: Status,
    settings: ClientSettings,
    cacheConfig: CacheConfig,
    assignment: ControlPlane.ServerResponse,
    ticks: nat)

  /** What one tick of the worker loop reads from the outside world. */
  datatype TickInput = TickInput(file: SettingsFile, ping: Option<ControlPlane.ServerResponse>)

  /**
    One iteration of the loop body of utils.go:85-101: reload settings (a
    failure is log.Fatalf, exit status 1), push the cache limits, re-ping and
    keep the old assignment when the ping fails.
   */
  function Tick(c: Coordinator, input: TickInput): (r: Coordinator)
    ensures r.ticks == c.ticks + 1 && r.running == c.running
    ensures Load(input.file).Failure? ==>
      r.status == Exited(1) && r.settings == c.settings && r.cacheConfig == c.cacheConfig && r.assignment == c.assignment
    ensures Load(input.file).Success? ==>
      && r.status == c.status
      && r.settings == input.file.settings
      && r.cacheConfig == CacheConfigOf(input.file.settings)
      && (input.ping.None? ==> r.assignment == c.assignment)
      && (input.ping.Some? ==> r.assignment == input.ping.value)
  {
    match Load(input.file)
    case Failure(_) => c.(status := Exited(1), ticks := c.ticks + 1)
    case Success(s) =>
      c.(settings := s,
         cacheConfig := CacheConfigOf(s),
         assignment := ControlPlane.Refresh(c.assignment, input.ping),
         ticks := c.ticks + 1)
  }

  /** Exit status of a Go program killed by an unrecovered panic. */
  const PanicExitCode: int := 2

  /**
    One iteration of the older loop of main.go:113-127: settings are reloaded
    without validation, the refresh age is not pushed, and the ping overlays
    its reply on the held assignment; a failed ping panics (status 2) and an
    empty image server is log.Fatalf (status 1).
   */
  function MainTick(c: Coordinator, file: SettingsFile, reply: Option<ControlPlane.PingReply>): (r: Coordinator)
    ensures r.ticks == c.ticks + 1 && r.running == c.running
    ensures !file.Parsed? ==> r.status == Exited(1)
    ensures file.Parsed? ==>
      && r.settings == file.settings
      && r.cacheConfig.limitBytes == file.settings.maxCacheSizeInMebibytes * ControlPlane.BytesPerMebibyte
      && r.cacheConfig.scanIntervalSeconds == file.settings.cacheScanIntervalInSeconds
      && r.cacheConfig.refreshAgeSeconds == c.cacheConfig.refreshAgeSeconds
    ensures file.Parsed? && reply.None? ==> r.status == Exited(PanicExitCode)
    ensures file.Parsed? && reply.Some? && ControlPlane.Overlay(c.assignment, reply.value).imageServer == "" ==>
      r.status == Exited(1)
    ensures file.Parsed? && reply.Some? && ControlPlane.Overlay(c.assignment, reply.value).imageServer != "" ==>
      r.status == c.status && r.assignment == ControlPlane.Overlay(c.assignment, reply.value)
  {
    if !file.Parsed? then c.(status := Exited(1), ticks := c.ticks + 1)
    else
      var s := file.settings;
      var c' := c.(settings := s,
                   cacheConfig := c.cacheConfig.(limitBytes := s.maxCacheSizeInMebibytes * 1024 * 1024,
                                                 scanIntervalSeconds := s.cacheScanIntervalInSeconds),
                   ticks := c.ticks + 1);
      match ControlPlane.PingServer(c.assignment, reply)
      case Failure(e) => c'.(status := Exited(if e.ControlPlaneUnreachable? then PanicExitCode else 1))
      case Success(a) => c'.(assignment := a)
  }

  /** The events that reach the coordinator, interleaved in some order. */
  datatype Event =
    | TickDue(input: TickInput)
    | Signal

  /**
    One event.  A tick begins only while `running` holds (utils.go:84); the
    signal clears `running`.  An exited process does nothing.
   */
  function Step(c: Coordinator, e: Event): (r: Coordinator)
    ensures c.status.Exited? ==> r == c
    ensures !c.running ==> r == c
    ensures e.Signal? && c.status.Live? ==> !r.running
    ensures r.ticks == (if c.status.Live? && c.running && e.TickDue? then c.ticks + 1 else c.ticks)
  {
    if c.status.Exited? then c
    else
      match e
      case TickDue(input) => if c.running then Tick(c, input) else c
      case Signal => c.(running := false)
  }

  function Run(c: Coordinator, events: seq<Event>): Coordinator
    decreases |events|
  {
    if events == [] then c else Run(Step(c, events[0]), events[1..])
  }

  /** Running a schedule in two parts is running it whole. */
  lemma {:induction false} RunAppend(c: Coordinator, a: seq<Event>, b: seq<Event>)
    ensures Run(c, a + b) == Run(Run(c, a), b)
    decreases |a|
  {
    if a == [] {
      assert a + b == b;
    } else {
      assert (a + b)[0] == a[0];
      assert (a + b)[1..] == a[1..] + b;
      RunAppend(Step(c, a[0]), a[1..], b);
    }
  }

  /** Once `running` is false or the process has exited, no event changes anything: no tick begins, nothing is reloaded or re-pinged. */
  lemma {:induction false} StoppedStaysPut(c: Coordinator, events: seq<Event>)
    requires !c.running || c.status.Exited?
    ensures Run(c, events) == c
    decreases |events|
  {
    if events != [] {
      StoppedStaysPut(Step(c, events[0]), events[1..]);
    }
  }

  /** Whatever follows a signal, the settings, limits, assignment and tick count stay as they were at the signal. */
  lemma {:induction false} NoTickAfterSignal(c: Coordinator, before: seq<Event>, after: seq<Event>)
    ensures var atSignal := Run(c, before + [Signal]);
      && Run(c, before + [Signal] + after) == atSignal
      && (!atSignal.running || atSignal.status.Exited?)
  {
    var atSignal := Run(c, before + [Signal]);
    RunAppend(c, before, [Signal]);
    RunAppend(c, before + [Signal], after);
    var mid := Run(c, before);
    assert atSignal == Run(Step(mid, Signal), []);
    StoppedStaysPut(atSignal, after);
  }

  /** The number of tick events in a schedule. */
  function CountTicks(events: seq<Event>): nat
    decreases |events|
  {
    if events == [] then 0 else (if events[0].TickDue? then 1 else 0) + CountTicks(events[1..])
  }

  /** Ticks begun never exceed the tick events delivered. */
  lemma {:induction false} TicksBounded(c: Coordinator, events: seq<Event>)
    ensures Run(c, events).ticks <= c.ticks + CountTicks(events)
    decreases |events|
  {
    if events != [] {
      TicksBounded(Step(c, events[0]), events[1..]);
    }
  }

  /** The cache runs with the limits derived from the settings the coordinator holds. */
  predicate LimitsFollowSettings(c: Coordinator) {
    c.cacheConfig == CacheConfigOf(c.settings)
  }

  /** A tick keeps the pushed limits in step with the held settings, whether its load fails or succeeds. */
  lemma TickKeepsLimitsInStep(c: Coordinator, input: TickInput)
    requires LimitsFollowSettings(c)
    ensures LimitsFollowSettings(Tick(c, input))
  {
  }

  /** Over any schedule of ticks and signals, the limits stay in step with the settings. */
  lemma {:induction false} RunKeepsLimitsInStep(c: Coordinator, events: seq<Event>)
    requires LimitsFollowSettings(c)
    ensures LimitsFollowSettings(Run(c, events))
    decreases |events|
  {
    if events != [] {
      var e := events[0];
      if c.status.Live? && c.running && e.TickDue? {
        TickKeepsLimitsInStep(c, e.input);
      }
      RunKeepsLimitsInStep(Step(c, e), events[1..]);
    }
  }

  // ---------------------------------------------------------------------------
  // Shutdown and the drain wait

  /** The two copies of the shutdown handler. */
  datatype Variant =
    | RootMain   // main.go:232-277
    | Mdathome   // internal/mdathome/utils.go:105-142

  /** Seconds without a request after which the drain is complete. */
  function IdleThreshold(v: Variant): int {
    match v
    case RootMain => 15
    case Mdathome => 30
  }

  /**
    The drain wait's inputs.  Times are seconds, read off a clock as the
    source's `float64` seconds are: the idle threshold, the budget
    (GracefulShutdownInSeconds), the time the wait started, and, for the check
    made after `k` one-second sleeps, the time of the last request (requests
    may keep arriving while draining) and the time elapsed since the wait
    started (`time.Since(timeShutdown)`).
   */
  datatype DrainParams = DrainParams(
    threshold: int,
    budget: int,
    shutdownAt: real,
    lastRequestAt: nat -> real,
    waited: nat -> real)

  datatype DrainExit = IdleReached | GaveUp

  /** Seconds since the last request, observed at the check after `k` sleeps. */
  function Idle(p: DrainParams, k: nat): real {
    p.shutdownAt + p.waited(k) - p.lastRequestAt(k)
  }

  /** The loop ends at the check made after `k` sleeps: idle long enough, or strictly past the budget. */
  predicate Stops(p: DrainParams, k: nat) {
    Idle(p, k) >= p.threshold as real || p.waited(k) > p.budget as real
  }

  /** `time.Sleep(1 * time.Second)` pauses at least one second, so `k` sleeps take at least `k` seconds. */
  ghost predicate SleepsLastASecond(p: DrainParams) {
    forall k: nat :: p.waited(k) >= k as real
  }

  /** Each check also takes some time: after `k` sleeps strictly more than `k` seconds have passed. */
  ghost predicate ClockMoves(p: DrainParams) {
    forall k: nat :: p.waited(k) > k as real
  }

  /** The most sleeps the loop can make when sleeps last at least a second: one per second of budget, plus one. */
  function MaxSleeps(p: DrainParams): nat {
    if p.budget < 0 then 0 else p.budget + 1
  }

  /**
    The drain loop: returns why it ended and how many one-second sleeps it
    made.  The count is the first `k` at which the loop stops, so the loop
    ends as soon as the node has been idle for the threshold, and at the
    latest at the first check strictly past the budget.  That the loop ends
    at all rests on the sleeps taking time.
   */
  method Drain(p: DrainParams) returns (exit: DrainExit, sleeps: nat)
    requires SleepsLastASecond(p)
    ensures Stops(p, sleeps)
    ensures forall k :: 0 <= k < sleeps ==> !Stops(p, k)
    ensures exit == IdleReached <==> Idle(p, sleeps) >= p.threshold as real
    ensures exit == GaveUp ==> p.waited(sleeps) > p.budget as real
    ensures sleeps <= MaxSleeps(p)
    ensures ClockMoves(p) ==> sleeps <= Max(p.budget, 0)
    ensures Idle(p, 0) >= p.threshold as real ==> sleeps == 0 && exit == IdleReached
  {
    var elapsed: nat := 0;
    while Idle(p, elapsed) < p.threshold as real
      invariant elapsed <= MaxSleeps(p)
      invariant ClockMoves(p) ==> elapsed <= Max(p.budget, 0)
      invariant forall k :: 0 <= k < elapsed ==> !Stops(p, k)
      invariant Idle(p, 0) >= p.threshold as real ==> elapsed == 0
      decreases MaxSleeps(p) - elapsed
    {
      if p.waited(elapsed) > p.budget as real {
        return GaveUp, elapsed;
      }
      elapsed := elapsed + 1;
    }
    return IdleReached, elapsed;
  }

  function Min(a: int, b: int): int { if a <= b then a else b }
  function Max(a: int, b: int): int { if a >= b then a else b }

  /** The least whole number of seconds covering `x`. */
  function Ceil(x: real): (n: int)
    ensures x <= n as real < x + 1.0
  {
    -((-x).Floor)
  }

  /**
    A quiet drain: no request arrives while draining, each sleep lasts exactly
    one second, and every check comes a fixed `delay` (less than a second)
    after its sleep.  Then the number of sleeps is the whole seconds missing to
    the threshold, capped by the budget.
   */
  lemma QuietDrainSleeps(p: DrainParams, delay: real, n: nat)
    requires forall k: nat :: p.lastRequestAt(k) == p.lastRequestAt(0)
    requires 0.0 < delay < 1.0 && forall k: nat :: p.waited(k) == k as real + delay
    requires Stops(p, n) && forall k :: 0 <= k < n ==> !Stops(p, k)
    ensures n == Min(Max(Ceil(p.threshold as real - Idle(p, 0)), 0), Max(p.budget, 0))
  {
    var missing := Ceil(p.threshold as real - Idle(p, 0));
    var m: nat := Min(Max(missing, 0), Max(p.budget, 0));
    assert Idle(p, m) == Idle(p, 0) + m as real;
    assert Idle(p, n) == Idle(p, 0) + n as real;
    assert Stops(p, m);
  }

  /** With no budget the drain never sleeps: the first check already finds the budget exceeded. */
  lemma ZeroBudgetNeverSleeps(p: DrainParams, n: nat)
    requires p.budget == 0 && ClockMoves(p)
    requires Stops(p, n) && forall k :: 0 <= k < n ==> !Stops(p, k)
    ensures n == 0
  {
    assert p.waited(0) > 0.0;
    assert Stops(p, 0);
  }

  /** The shutdown steps, in the order they happen. */
  datatype Action =
    | ClearRunning
    | PostStop
    | Sleep
    | Exit(code: int)

  /**
    The shutdown goroutine after the signal: clear `running`, deregister,
    drain, exit.  In main.go a failed /stop request is log.Fatalf, which
    exits with status 1 before any drain; the deregistration of the mdathome
    package is best-effort.
   */
  method Shutdown(v: Variant, c: Coordinator, stopDelivered: bool, shutdownAt: real, lastRequestAt: nat -> real, waited: nat -> real)
    returns (actions: seq<Action>, r: Coordinator)
    requires SleepsLastASecond(DrainParams(IdleThreshold(v), c.settings.gracefulShutdownInSeconds, shutdownAt, lastRequestAt, waited))
    ensures |actions| >= 3 && actions[0] == ClearRunning && actions[1] == PostStop
    ensures actions[|actions| - 1].Exit?
    ensures forall i :: 2 <= i < |actions| - 1 ==> actions[i] == Sleep
    ensures |actions| - 3 <= MaxSleeps(DrainParams(IdleThreshold(v), c.settings.gracefulShutdownInSeconds, shutdownAt, lastRequestAt, waited))
    ensures ClockMoves(DrainParams(IdleThreshold(v), c.settings.gracefulShutdownInSeconds, shutdownAt, lastRequestAt, waited)) ==>
      |actions| - 3 <= Max(c.settings.gracefulShutdownInSeconds, 0)
    ensures v == RootMain && !stopDelivered ==> actions == [ClearRunning, PostStop, Exit(1)]
    ensures v == Mdathome || stopDelivered ==> actions[|actions| - 1] == Exit(0)
    ensures v == Mdathome || stopDelivered ==>
      var p := DrainParams(IdleThreshold(v), c.settings.gracefulShutdownInSeconds, shutdownAt, lastRequestAt, waited);
      Stops(p, |actions| - 3) && forall k :: 0 <= k < |actions| - 3 ==> !Stops(p, k)
    ensures !r.running && r.status == Exited(actions[|actions| - 1].code)
    ensures r.settings == c.settings && r.assignment == c.assignment && r.ticks == c.ticks
  {
    if v == RootMain && !stopDelivered {
      actions := [ClearRunning, PostStop, Exit(1)];
    } else {
      var p := DrainParams(IdleThreshold(v), c.settings.gracefulShutdownInSeconds, shutdownAt, lastRequestAt, waited);
      var _, sleeps := Drain(p);
      actions := [ClearRunning, PostStop] + seq(sleeps, _ => Sleep) + [Exit(0)];
    }
    r := c.(running := false, status := Exited(actions[|actions| - 1].code));
  }
}

=== FILE: metrics.dfy ===
/**
  The request metrics recorder (internal/mdathome/metrics.go): per outcome
  class a request count and a running total of elapsed time.  Prometheus
  counters become plain naturals; elapsed time is whole milliseconds.
 */
module Metrics {
  import opened Wrappers

  const RequestHit: string := "HIT"
  const RequestMiss: string := "MISS"

  /** The pair of counters kept for one class. */
  datatype Counter = Counter(count: nat, elapsed: nat)

  const Zero: Counter := Counter(0, 0)

  type Counters = map<string, Counter>

  /** A Go map variable: nil until it is made. */
  datatype GoMap = NilMap | MadeMap(entries: Counters)

  datatype Panic = AssignmentToNilMap

  /** The array ranged over by initMetrics: `[3]string{RequestHit, RequestMiss}`, whose third element is "". */
  const InitTypes: seq<string> := [RequestHit, RequestMiss, ""]

  /** Store a fresh pair of counters under each type in turn; a store into a nil map panics. */
  function RegisterAll(m: GoMap, types: seq<string>): (r: Result<GoMap, Panic>)
    decreases |types|
    ensures m.NilMap? && types != [] ==> r == Failure(AssignmentToNilMap)
    ensures m.MadeMap? ==> r.Success? && r.value.MadeMap?
    ensures m.MadeMap? ==> r.value.entries.Keys == m.entries.Keys + set t | t in types
    ensures m.MadeMap? ==> forall t :: t in types ==> r.value.entries[t] == Zero
    ensures m.MadeMap? ==> forall k :: k in m.entries && k !in types ==> r.value.entries[k] == m.entries[k]
  {
    if types == [] then Success(m)
    else
      match m
      case NilMap => Failure(AssignmentToNilMap)
      case MadeMap(e) => RegisterAll(MadeMap(e[types[0] := Zero]), types[1..])
  }

  /** initMetrics as written: `counters` is declared but never made, so the first store panics. */
  function InitMetricsAsWritten(): (r: Result<GoMap, Panic>)
    ensures r == Failure(AssignmentToNilMap)
  {
    RegisterAll(NilMap, InitTypes)
  }

  /** initMetrics once `counters` is made: exactly the three types of the array, all at zero. */
  function InitMetrics(): (r: Counters)
    ensures r.Keys == {RequestHit, RequestMiss, ""}
    ensures forall k :: k in r ==> r[k] == Zero
  {
    var made := RegisterAll(MadeMap(map[]), InitTypes);
    assert forall t :: t in InitTypes <==> t == RequestHit || t == RequestMiss || t == "";
    made.value.entries
  }

  /** Both classes have counters; a missing one would be a nil counter and recordRequest would panic. */
  predicate Ready(m: Counters) {
    RequestHit in m && RequestMiss in m
  }

  function ClassOf(hit: bool): string {
    if hit then RequestHit else RequestMiss
  }

  /** recordRequest: one more request and `elapsed` more time for the selected class, nothing else changes. */
  function Record(m: Counters, hit: bool, elapsed: nat): (r: Counters)
    requires Ready(m)
    ensures r.Keys == m.Keys
    ensures hit ==> r[RequestHit].count == m[RequestHit].count + 1 && r[RequestMiss] == m[RequestMiss]
    ensures !hit ==> r[RequestMiss].count == m[RequestMiss].count + 1 && r[RequestHit] == m[RequestHit]
    ensures r[ClassOf(hit)].elapsed == m[ClassOf(hit)].elapsed + elapsed
    ensures forall k :: k in m && k != ClassOf(hit) ==> r[k] == m[k]
  {
    var c := m[ClassOf(hit)];
    m[ClassOf(hit) := Counter(c.count + 1, c.elapsed + elapsed)]
  }

  /** One recorded request. */
  datatype Sample = Sample(hit: bool, elapsed: nat)

  function RecordAll(m: Counters, samples: seq<Sample>): (r: Counters)
    requires Ready(m)
    decreases |samples|
    ensures Ready(r) && r.Keys == m.Keys
  {
    if samples == [] then m
    else RecordAll(Record(m, samples[0].hit, samples[0].elapsed), samples[1..])
  }

  /** Totals never go down. */
  lemma {:induction false} RecordAllMonotone(m: Counters, samples: seq<Sample>)
    requires Ready(m)
    decreases |samples|
    ensures forall k :: k in m ==>
      RecordAll(m, samples)[k].count >= m[k].count && RecordAll(m, samples)[k].elapsed >= m[k].elapsed
  {
    if samples != [] {
      RecordAllMonotone(Record(m, samples[0].hit, samples[0].elapsed), samples[1..]);
    }
  }

  /** Two records commute. */
  lemma RecordCommutes(m: Counters, a: Sample, b: Sample)
    requires Ready(m)
    ensures Record(Record(m, a.hit, a.elapsed), b.hit, b.elapsed) == Record(Record(m, b.hit, b.elapsed), a.hit, a.elapsed)
  {
  }

  lemma {:induction false} RecordAllAppend(m: Counters, a: seq<Sample>, b: seq<Sample>)
    requires Ready(m)
    decreases |a|
    ensures RecordAll(m, a + b) == RecordAll(RecordAll(m, a), b)
  {
    if a == [] {
      assert a + b == b;
    } else {
      assert (a + b)[0] == a[0];
      assert (a + b)[1..] == a[1..] + b;
      RecordAllAppend(Record(m, a[0].hit, a[0].elapsed), a[1..], b);
    }
  }

  /** A record made first can be made last instead. */
  lemma {:induction false} RecordFirstIsRecordLast(m: Counters, x: Sample, samples: seq<Sample>)
    requires Ready(m)
    decreases |samples|
    ensures RecordAll(Record(m, x.hit, x.elapsed), samples) == Record(RecordAll(m, samples), x.hit, x.elapsed)
  {
    if samples != [] {
      var y := samples[0];
      RecordCommutes(m, x, y);
      RecordFirstIsRecordLast(Record(m, y.hit, y.elapsed), x, samples[1..]);
    }
  }

  lemma RemoveMatching(s1: seq<Sample>, s2: seq<Sample>, j: nat)
    requires multiset(s1) == multiset(s2)
    requires |s1| > 0 && j < |s2| && s2[j] == s1[0]
    ensures multiset(s1[1..]) == multiset(s2[..j] + s2[j + 1..])
  {
    var x := s1[0];
    var a, b := s2[..j], s2[j + 1..];
    assert s2 == a + [x] + b;
    assert s1 == [x] + s1[1..];
    calc {
      multiset(s1[1..]);
      multiset(s1) - multiset{x};
      multiset(s2) - multiset{x};
      multiset(a) + multiset{x} + multiset(b) - multiset{x};
      multiset(a) + multiset(b);
      multiset(a + b);
    }
  }

  /** The totals depend only on which samples were recorded, not on their order. */
  lemma {:induction false} RecordAllOrderIndependent(m: Counters, s1: seq<Sample>, s2: seq<Sample>)
    requires Ready(m)
    requires multiset(s1) == multiset(s2)
    decreases |s1|
    ensures RecordAll(m, s1) == RecordAll(m, s2)
  {
    if s1 == [] {
      assert |s2| == |multiset(s2)| == 0;
    } else {
      var x := s1[0];
      assert x in multiset(s2);
      var j :| 0 <= j < |s2| && s2[j] == x;
      var before, after := s2[..j], s2[j + 1..];
      RemoveMatching(s1, s2, j);
      RecordAllOrderIndependent(Record(m, x.hit, x.elapsed), s1[1..], before + after);
      // Left: x first, then the rest in s1's order, which is the rest in s2's order.
      RecordFirstIsRecordLast(m, x, before + after);
      assert RecordAll(m, s1) == Record(RecordAll(m, before + after), x.hit, x.elapsed);
      // Right: s2 is before, then x, then after.
      assert s2 == before + ([x] + after);
      RecordAllAppend(m, before, [x] + after);
      RecordAllAppend(m, before, after);
      var mb := RecordAll(m, before);
      assert RecordAll(mb, [x] + after) == RecordAll(Record(mb, x.hit, x.elapsed), after);
      RecordFirstIsRecordLast(mb, x, after);
    }
  }

  /** One hit of 5 ms and one miss of 40 ms after init. */
  lemma HitAndMissExample()
    ensures var m := RecordAll(InitMetrics(), [Sample(true, 5), Sample(false, 40)]);
      m[RequestHit] == Counter(1, 5) && m[RequestMiss] == Counter(1, 40) && m[""] == Zero
  {
    var m0 := InitMetrics();
    var m1 := Record(m0, true, 5);
    var m2 := Record(m1, false, 40);
    assert RecordAll(m0, [Sample(true, 5), Sample(false, 40)]) == RecordAll(m1, [Sample(false, 40)]);
    assert RecordAll(m1, [Sample(false, 40)]) == RecordAll(m2, []);
  }
}

=== FILE: path_rules.dfy ===
/**
  The three path checks that gate every image request, and the cache key built
  from the checked tokens (main.go, RequestHandler).  The regular expressions of
  the source are written here as character predicates; each one that is not
  already a plain quantifier is paired with a reference definition that follows
  the regular-expression semantics, and a lemma shows the two agree.
 */
module PathRules {

  /** The path variables the router hands to the handler. */
  datatype PathTokens = PathTokens(imageType: string, chapterHash: string, imageFilename: string)

  /** The two routes the handler is registered under (main.go:304-305). */
  datatype Route =
    | Plain(tokens: PathTokens)
    | Tokened(requestToken: string, tokens: PathTokens)

  /** The handler reads the same three variables on both routes; the token is never looked at. */
  function TokensOf(r: Route): PathTokens {
    match r
    case Plain(p) => p
    case Tokened(_, p) => p
  }

  // ---------------------------------------------------------------------------
  // Character classes

  /** The class `[0-9a-f]`. */
  predicate IsLowerHex(c: char) {
    '0' <= c <= '9' || 'a' <= c <= 'f'
  }

  /** The class `[a-zA-Z0-9]`. */
  predicate IsAsciiAlnum(c: char) {
    'a' <= c <= 'z' || 'A' <= c <= 'Z' || '0' <= c <= '9'
  }

  // ---------------------------------------------------------------------------
  // image_type

  predicate IsImageType(t: string) {
    t == "data" || t == "data-saver"
  }

  // ---------------------------------------------------------------------------
  // chapter_hash: `^[0-9a-f]{32}$`

  const HashLength: nat := 32

  predicate IsChapterHash(h: string) {
    |h| == HashLength && forall i :: 0 <= i < |h| ==> IsLowerHex(h[i])
  }

  /** Left-to-right scan deciding the hash pattern, as a regexp engine would run it. */
  method CheckChapterHash(h: string) returns (ok: bool)
    ensures ok <==> |h| == HashLength && forall i :: 0 <= i < |h| ==> IsLowerHex(h[i])
  {
    if |h| != HashLength {
      return false;
    }
    var i := 0;
    while i < |h|
      invariant 0 <= i <= |h|
      invariant forall j :: 0 <= j < i ==> IsLowerHex(h[j])
    {
      if !IsLowerHex(h[i]) {
        return false;
      }
      i := i + 1;
    }
    return true;
  }

  /** A hash with an upper-case hex digit is rejected, whatever its length. */
  lemma UpperHexRejected(h: string, i: nat)
    requires i < |h| && 'A' <= h[i] <= 'F'
    ensures !IsChapterHash(h)
  {
    assert !IsLowerHex(h[i]);
  }

  // ---------------------------------------------------------------------------
  // image_filename: `[a-zA-Z0-9]{1,4}\.(jpg|jpeg|png|gif)$`

  /** The extensions of the alternation, without the dot. */
  const Extensions: seq<string> := ["jpg", "jpeg", "png", "gif"]

  /** `f` ends in "." + `e` and the character before the dot is an ASCII letter or digit. */
  predicate EndsWithExtension(f: string, e: string) {
    && |f| >= |e| + 2
    && f[|f| - |e| - 1] == '.'
    && f[|f| - |e|..] == e
    && IsAsciiAlnum(f[|f| - |e| - 2])
  }

  /** The filename check the handler performs. */
  predicate IsImageFilename(f: string) {
    exists n :: 0 <= n < |Extensions| && EndsWithExtension(f, Extensions[n])
  }

  /** Reference: `[a-zA-Z0-9]{1,4}` matches `f[i..k]`. */
  ghost predicate StemAt(f: string, i: int, k: int) {
    && 0 <= i < k <= |f|
    && k - i <= 4
    && forall j :: i <= j < k ==> IsAsciiAlnum(f[j])
  }

  /** Reference: `\.(jpg|jpeg|png|gif)` followed by `$` (end of text) matches `t` exactly. */
  ghost predicate IsDottedExtension(t: string) {
    t == ".jpg" || t == ".jpeg" || t == ".png" || t == ".gif"
  }

  /** Reference: the unanchored pattern has a match starting at `i` whose stem ends at `k`. */
  ghost predicate FilenameMatchAt(f: string, i: int, k: int) {
    StemAt(f, i, k) && IsDottedExtension(f[k..])
  }

  /** Reference: Go's `regexp.MatchString` finds a match anywhere in `f`. */
  ghost predicate FilenameRegexMatches(f: string) {
    exists i, k :: FilenameMatchAt(f, i, k)
  }

  lemma DottedExtensionShape(f: string, k: nat)
    requires k <= |f| && IsDottedExtension(f[k..])
    ensures exists n :: 0 <= n < |Extensions| && f[k..] == "." + Extensions[n]
  {
    if f[k..] == ".jpg" {
      assert f[k..] == "." + Extensions[0];
    } else if f[k..] == ".jpeg" {
      assert f[k..] == "." + Extensions[1];
    } else if f[k..] == ".png" {
      assert f[k..] == "." + Extensions[2];
    } else {
      assert f[k..] == "." + Extensions[3];
    }
  }

  /** The suffix check accepts exactly the filenames the source's regular expression matches. */
  lemma {:induction false} FilenameCheckIsRegex(f: string)
    ensures IsImageFilename(f) <==> FilenameRegexMatches(f)
  {
    if IsImageFilename(f) {
      var n :| 0 <= n < |Extensions| && EndsWithExtension(f, Extensions[n]);
      var e := Extensions[n];
      var k := |f| - |e| - 1;
      assert f[k..] == [f[k]] + f[k + 1..];
      assert f[k..] == "." + e;
      assert StemAt(f, k - 1, k);
      assert FilenameMatchAt(f, k - 1, k);
    }
    if FilenameRegexMatches(f) {
      var i, k :| FilenameMatchAt(f, i, k);
      DottedExtensionShape(f, k);
      var n :| 0 <= n < |Extensions| && f[k..] == "." + Extensions[n];
      var e := Extensions[n];
      assert k == |f| - |e| - 1;
      assert f[k] == f[k..][0] == '.';
      assert f[|f| - |e|..] == f[k..][1..] == e;
      assert IsAsciiAlnum(f[k - 1]);
      assert EndsWithExtension(f, e);
    }
  }

  /**
    The pattern has no start anchor, so `{1,4}` bounds nothing: any non-empty
    alphanumeric stem, however long, followed by ".png" is accepted.
   */
  lemma {:induction false} LongStemAccepted(stem: string)
    requires |stem| >= 1 && forall j :: 0 <= j < |stem| ==> IsAsciiAlnum(stem[j])
    ensures IsImageFilename(stem + ".png")
  {
    var f := stem + ".png";
    assert f[|f| - 3..] == "png";
    assert f[|f| - 4] == '.';
    assert f[|f| - 5] == stem[|stem| - 1];
    assert EndsWithExtension(f, Extensions[2]);
  }

  /** Extensions are case-sensitive: "X.JPG" is rejected. */
  lemma UpperCaseExtensionRejected()
    ensures !IsImageFilename("X.JPG")
  {
    forall n | 0 <= n < |Extensions|
      ensures !EndsWithExtension("X.JPG", Extensions[n])
    {
      var f := "X.JPG";
      var e := Extensions[n];
      if |f| >= |e| + 2 {
        assert f[|f| - |e|..][0] != e[0];
      }
    }
  }

  // ---------------------------------------------------------------------------
  // The whole path and its key

  /** All three checks of main.go:139-150 pass. */
  predicate IsValidPath(p: PathTokens) {
    IsImageType(p.imageType) && IsChapterHash(p.chapterHash) && IsImageFilename(p.imageFilename)
  }

  /** The sanitized URL used as cache key (main.go:151). */
  function CacheKey(p: PathTokens): string {
    "/" + p.imageType + "/" + p.chapterHash + "/" + p.imageFilename
  }

  /** Both routes give the same key for the same three variables; the token plays no part. */
  lemma RoutesShareKey(token: string, p: PathTokens)
    ensures CacheKey(TokensOf(Tokened(token, p))) == CacheKey(TokensOf(Plain(p)))
  {
  }

  /** Where each token sits inside the key. */
  lemma KeyLayout(p: PathTokens)
    ensures var key := CacheKey(p); var t := |p.imageType|;
      && |key| == t + |p.chapterHash| + |p.imageFilename| + 3
      && key[0] == '/'
      && key[1..t + 1] == p.imageType
      && key[t + 1] == '/'
      && key[t + 2..t + 2 + |p.chapterHash|] == p.chapterHash
      && key[t + 2 + |p.chapterHash|] == '/'
      && key[t + 3 + |p.chapterHash|..] == p.imageFilename
  {
  }

  /** The key is canonical: two valid paths with the same key are the same path. */
  lemma {:induction false} CacheKeyInjective(p: PathTokens, q: PathTokens)
    requires IsValidPath(p) && IsValidPath(q)
    requires CacheKey(p) == CacheKey(q)
    ensures p == q
  {
    KeyLayout(p);
    KeyLayout(q);
  }

  /** A typical request path passes all three checks. */
  lemma SamplePathAccepted()
    ensures IsValidPath(PathTokens("data", "0123456789abcdef0123456789abcdef", "x1.jpg"))
  {
    var p := PathTokens("data", "0123456789abcdef0123456789abcdef", "x1.jpg");
    assert EndsWithExtension(p.imageFilename, Extensions[0]);
  }
}

=== FILE: referer.dfy ===
/**
  Normalisation of the Referer header (main.go:153-162).  An empty header becomes
  "None"; otherwise the header is replaced by the leftmost match of
  `https://mangadex.org/chapter/[0-9]+` when there is one.  The unescaped `.` of
  that pattern matches any character but a newline, and `[0-9]+` is greedy.
 */
module Referer {
  import opened Wrappers

  /** The literal text before the unescaped dot: scheme and the start of the host. */
  const HostPrefix: string := "https://mangadex"
  /** The literal text between the dot and the digits. */
  const ChapterPath: string := "org/chapter/"
  /** Offset of the unescaped dot within a match. */
  const DotOffset: nat := |HostPrefix|
  /** Offset of the chapter path within a match. */
  const PathOffset: nat := DotOffset + 1
  /** Offset of the first digit within a match. */
  const DigitsOffset: nat := PathOffset + |ChapterPath|
  /** Value set in place of an empty header. */
  const Placeholder: string := "None"

  predicate IsDigit(c: char) {
    '0' <= c <= '9'
  }

  /** A match of the pattern can start at `i`: the fixed part and at least one digit are there. */
  predicate MatchStartsAt(s: string, i: int) {
    && 0 <= i
    && i + DigitsOffset + 1 <= |s|
    && s[i..i + DotOffset] == HostPrefix
    && s[i + DotOffset] != '\n'
    && s[i + PathOffset..i + DigitsOffset] == ChapterPath
    && IsDigit(s[i + DigitsOffset])
  }

  /** The first position at or after `i` where a match starts, if any. */
  function LeftmostStart(s: string, i: nat): (r: Option<nat>)
    decreases |s| - i
    ensures r.None? <==> forall k :: i <= k ==> !MatchStartsAt(s, k)
    ensures r.Some? ==> i <= r.value && MatchStartsAt(s, r.value)
    ensures r.Some? ==> forall k :: i <= k < r.value ==> !MatchStartsAt(s, k)
  {
    if i + DigitsOffset + 1 > |s| then None
    else if MatchStartsAt(s, i) then Some(i)
    else LeftmostStart(s, i + 1)
  }

  /** End of the run of digits that begins at `j`: where greedy `[0-9]+` stops. */
  function DigitRunEnd(s: string, j: nat): (r: nat)
    requires j <= |s|
    decreases |s| - j
    ensures j <= r <= |s|
    ensures forall k :: j <= k < r ==> IsDigit(s[k])
    ensures r == |s| || !IsDigit(s[r])
  {
    if j == |s| || !IsDigit(s[j]) then j else DigitRunEnd(s, j + 1)
  }

  /** Go's `FindString`: the leftmost, greedy match, or "" when there is none. */
  function FindString(s: string): string {
    match LeftmostStart(s, 0)
    case None => ""
    case Some(i) => s[i..DigitRunEnd(s, i + DigitsOffset)]
  }

  /** Reference: `s[i..j]` is the match Go reports — leftmost start, digits taken as far as they go. */
  ghost predicate IsLeftmostGreedyMatch(s: string, i: int, j: int) {
    && MatchStartsAt(s, i)
    && (forall k :: 0 <= k < i ==> !MatchStartsAt(s, k))
    && i + DigitsOffset < j <= |s|
    && (forall k :: i + DigitsOffset <= k < j ==> IsDigit(s[k]))
    && (j == |s| || !IsDigit(s[j]))
  }

  /** The header value after main.go:154-162. */
  function Normalize(referer: string): (r: string)
    ensures referer == "" ==> r == Placeholder
    ensures referer != "" && (forall k :: !MatchStartsAt(referer, k)) ==> r == referer
    ensures (exists k :: MatchStartsAt(referer, k)) ==>
      exists i, j :: IsLeftmostGreedyMatch(referer, i, j) && r == referer[i..j]
  {
    var header := if referer == "" then Placeholder else referer;
    var found := FindString(header);
    if found != "" then found else header
  }

  /** "None" cannot contain a match: it is shorter than the shortest match. */
  lemma PlaceholderHasNoMatch()
    ensures forall k :: !MatchStartsAt(Placeholder, k)
  {
  }

  /** FindString reports a non-empty result exactly when some match exists, and then it is the leftmost greedy one. */
  lemma {:induction false} FindStringIsLeftmostGreedy(s: string)
    ensures FindString(s) != "" <==> exists k :: MatchStartsAt(s, k)
    ensures FindString(s) != "" ==>
      exists i, j :: IsLeftmostGreedyMatch(s, i, j) && FindString(s) == s[i..j]
  {
    match LeftmostStart(s, 0)
    case None =>
    case Some(i) =>
      var j := DigitRunEnd(s, i + DigitsOffset);
      assert IsLeftmostGreedyMatch(s, i, j);
  }

  /** A match, taken on its own, is again its own leftmost greedy match. */
  lemma {:induction false} MatchIsFixedPoint(s: string, i: int, j: int)
    requires IsLeftmostGreedyMatch(s, i, j)
    ensures Normalize(s[i..j]) == s[i..j]
  {
    var m := s[i..j];
    assert m[0..DotOffset] == s[i..i + DotOffset];
    assert |m| > DigitsOffset;
    assert forall t :: 0 <= t < |ChapterPath| ==>
      m[PathOffset..DigitsOffset][t] == m[PathOffset + t] == s[i + PathOffset + t] == s[i + PathOffset..i + DigitsOffset][t];
    assert m[PathOffset..DigitsOffset] == s[i + PathOffset..i + DigitsOffset];
    assert MatchStartsAt(m, 0);
    assert LeftmostStart(m, 0) == Some(0);
    assert forall k :: DigitsOffset <= k < |m| ==> IsDigit(m[k]);
    assert DigitRunEnd(m, DigitsOffset) == |m|;
    assert m[0..|m|] == m;
  }

  /** Normalising twice gives the same header as normalising once. */
  lemma {:induction false} NormalizeIdempotent(referer: string)
    ensures Normalize(Normalize(referer)) == Normalize(referer)
  {
    var r := Normalize(referer);
    if referer == "" {
      PlaceholderHasNoMatch();
    } else if exists k :: MatchStartsAt(referer, k) {
      var i, j :| IsLeftmostGreedyMatch(referer, i, j) && r == referer[i..j];
      MatchIsFixedPoint(referer, i, j);
    } else {
      assert r == referer;
    }
  }
}

=== FILE: request_handler.dfy ===
/**
  One image request, end to end (main.go:131-230): path checks, cache key,
  Referer normalisation, the If-Modified-Since shortcut and the hit/miss
  dispatch.  The disk cache is a map from key to bytes; the origin is a function
  from URL to the body it returns, or None when the fetch fails after the
  retrying client has given up.  How the copy to the client ended (completely,
  or cut short by a client disconnect or an upstream read error) is an input.
 */
module RequestHandler {
  import opened Wrappers
  import PathRules
  import Referer

  newtype byte = x: int | 0 <= x < 256

  type Cache = map<string, seq<byte>>

  /** The assigned image server, seen as a function of the full URL. */
  type Origin = string -> Option<seq<byte>>

  const StatusOK: nat := 200
  const StatusNotModified: nat := 304
  const StatusBadRequest: nat := 400

  /** Header set on every response that reaches the cache dispatch (main.go:176-177). */
  const CorsHeaders: map<string, string> :=
    map["Access-Control-Allow-Origin" := "https://mangadex.org", "Access-Control-Expose-Headers" := "*"]

  datatype Request = Request(route: PathRules.Route, referer: string, ifModifiedSince: string)

  /**
    How `io.Copy` from the upstream body ended, on a miss.  It says nothing
    about the copy to the client: a hit's reply is the whole cached image even
    if the client goes away during it, which changes no state.
   */
  datatype Transfer =
    | Completed
      /** The copy stopped after `bytesRead` bytes had gone through the tee. */
    | Interrupted(bytesRead: nat)

  /** The I/O the handler performs against the cache and the origin, in order. */
  datatype Event =
    | CacheGet(key: string)
    | UpstreamGet(url: string)
    | CacheSet(key: string, body: seq<byte>)

  /** What the client receives; `Dropped` is the connection closed by a panicking handler. */
  datatype Reply =
    | Reply(status: nat, headers: map<string, string>, body: seq<byte>)
    | Dropped

  /** The shared state a request touches: the cache and the time of the last completed request. */
  datatype Node = Node(cache: Cache, lastRequest: int)

  /** Result of one request: the reply, the node afterwards, the Referer header as left on the request, and the I/O trace. */
  datatype Outcome = Outcome(reply: Reply, node: Node, referer: string, trace: seq<Event>)

  /** The bytes that went through the tee buffer. */
  function Received(body: seq<byte>, transfer: Transfer): (r: seq<byte>)
    ensures transfer.Completed? ==> r == body
    ensures transfer.Interrupted? ==> |r| <= transfer.bytesRead && r <= body
  {
    match transfer
    case Completed => body
    case Interrupted(n) => if n < |body| then body[..n] else body
  }

  /**
    The store after a miss as main.go:198-202 writes it: the tee buffer is put
    in the cache whatever `io.Copy` returned.
   */
  function MissStoreAsWritten(cache: Cache, key: string, body: seq<byte>, transfer: Transfer): (c: Cache)
    ensures key in c && c[key] <= body
    ensures forall k :: k != key ==> (k in c <==> k in cache) && (k in cache ==> c[k] == cache[k])
  {
    cache[key := Received(body, transfer)]
  }

  /** A body cut short is cached truncated, and every later hit serves the truncated image. */
  lemma TruncatedBodyIsCached()
    ensures var c := MissStoreAsWritten(map[], "/k", [1, 2, 3], Interrupted(1));
      c["/k"] == [1] && c["/k"] != [1, 2, 3]
  {
  }

  /** The store after a miss as intended: only a complete body is committed. */
  function MissStore(cache: Cache, key: string, body: seq<byte>, transfer: Transfer): (c: Cache)
    ensures transfer.Completed? ==> key in c && c[key] == body
    ensures transfer.Interrupted? ==> c == cache
    ensures forall k :: k != key ==> (k in c <==> k in cache) && (k in cache ==> c[k] == cache[k])
  {
    if transfer.Completed? then cache[key := body] else cache
  }

  /** The cache I/O of MissStore. */
  function StoreEvents(key: string, body: seq<byte>, transfer: Transfer): seq<Event> {
    if transfer.Completed? then [CacheSet(key, body)] else []
  }

  /**
    Handle one request.  `imageServer` is the assignment's origin base URL,
    `now` the time at which the request completes.
   */
  function Handle(node: Node, imageServer: string, origin: Origin, req: Request, transfer: Transfer, now: int): (o: Outcome)
    // Rejection happens before any I/O and before the Referer is touched.
    ensures !PathRules.IsValidPath(PathRules.TokensOf(req.route)) <==> o.reply == Reply(StatusBadRequest, map[], [])
    ensures !PathRules.IsValidPath(PathRules.TokensOf(req.route)) ==>
      o.trace == [] && o.node == node && o.referer == req.referer
    // Past the checks, the header is normalised whatever happens next.
    ensures PathRules.IsValidPath(PathRules.TokensOf(req.route)) ==> o.referer == Referer.Normalize(req.referer)
    // A conditional request is answered 304 with no I/O, no headers and no state change.
    ensures PathRules.IsValidPath(PathRules.TokensOf(req.route)) && req.ifModifiedSince != "" <==>
      o.reply == Reply(StatusNotModified, map[], [])
    ensures o.reply.Reply? && o.reply.status == StatusNotModified ==> o.trace == [] && o.node == node
    // Every other request first looks its key up.
    ensures o.trace != [] <==> (o.reply.Reply? && o.reply.status == StatusOK) || o.reply.Dropped?
    ensures o.trace != [] ==> o.trace[0] == CacheGet(PathRules.CacheKey(PathRules.TokensOf(req.route)))
  {
    var p := PathRules.TokensOf(req.route);
    if !PathRules.IsValidPath(p) then
      Outcome(Reply(StatusBadRequest, map[], []), node, req.referer, [])
    else
      var key := PathRules.CacheKey(p);
      var referer := Referer.Normalize(req.referer);
      if req.ifModifiedSince != "" then
        Outcome(Reply(StatusNotModified, map[], []), node, referer, [])
      else if key in node.cache then
        // The cached bytes are copied before being written out.
        var image := node.cache[key];
        Outcome(Reply(StatusOK, CorsHeaders["X-Cache" := "HIT"], image), Node(node.cache, now), referer, [CacheGet(key)])
      else
        var url := imageServer + key;
        match origin(url)
        case None =>
          // log.Panicf: the request dies, nothing is stored and the last-request time is not updated.
          Outcome(Dropped, node, referer, [CacheGet(key), UpstreamGet(url)])
        case Some(body) =>
          Outcome(
            Reply(StatusOK, CorsHeaders["X-Cache" := "MISS"], Received(body, transfer)),
            Node(MissStore(node.cache, key, body, transfer), now),
            referer,
            [CacheGet(key), UpstreamGet(url)] + StoreEvents(key, body, transfer))
  }

  /** The request has a valid path and no If-Modified-Since: it reaches the cache. */
  predicate Dispatched(req: Request) {
    PathRules.IsValidPath(PathRules.TokensOf(req.route)) && req.ifModifiedSince == ""
  }

  function KeyOf(req: Request): string {
    PathRules.CacheKey(PathRules.TokensOf(req.route))
  }

  /** On a hit: HIT, the cached bytes served, the cache unchanged and the origin never asked. */
  lemma HitServesCachedBytes(node: Node, imageServer: string, origin: Origin, req: Request, transfer: Transfer, now: int)
    requires Dispatched(req) && KeyOf(req) in node.cache
    ensures var o := Handle(node, imageServer, origin, req, transfer, now);
      && o.reply.Reply?
      && o.reply.headers["X-Cache"] == "HIT"
      && o.reply.body == node.cache[KeyOf(req)]
      && o.node == Node(node.cache, now)
      && o.trace == [CacheGet(KeyOf(req))]
  {
  }

  /**
    On a miss: MISS, the fetch URL is image server + key, and after a complete
    copy the bytes stored under the key are the bytes the client received;
    every other key is left as it was.
   */
  lemma MissFetchesAndStores(node: Node, imageServer: string, origin: Origin, req: Request, now: int)
    requires Dispatched(req) && KeyOf(req) !in node.cache
    requires origin(imageServer + KeyOf(req)).Some?
    ensures var o := Handle(node, imageServer, origin, req, Completed, now);
      var key := KeyOf(req);
      && o.reply.Reply?
      && o.reply.headers["X-Cache"] == "MISS"
      && o.trace[1] == UpstreamGet(imageServer + key)
      && key in o.node.cache
      && o.node.cache[key] == o.reply.body == origin(imageServer + key).value
      && (forall k :: k != key ==> (k in o.node.cache <==> k in node.cache))
      && (forall k :: k != key && k in node.cache ==> o.node.cache[k] == node.cache[k])
  {
  }

  /** A failed fetch drops the connection and changes nothing. */
  lemma FailedFetchChangesNothing(node: Node, imageServer: string, origin: Origin, req: Request, transfer: Transfer, now: int)
    requires Dispatched(req) && KeyOf(req) !in node.cache
    requires origin(imageServer + KeyOf(req)).None?
    ensures var o := Handle(node, imageServer, origin, req, transfer, now);
      o.reply.Dropped? && o.node == node
  {
  }

  /**
    A miss followed by the same request (on either route, with any Referer)
    is a hit serving the very bytes the miss served, without asking the
    origin, whatever the origin answers by then.
   */
  lemma {:induction false} MissThenHit(
    node: Node, imageServer: string, origin: Origin, origin2: Origin,
    req: Request, req2: Request, transfer2: Transfer, now: int, now2: int)
    requires Dispatched(req) && KeyOf(req) !in node.cache
    requires origin(imageServer + KeyOf(req)).Some?
    requires req2.ifModifiedSince == "" && PathRules.TokensOf(req2.route) == PathRules.TokensOf(req.route)
    ensures var o1 := Handle(node, imageServer, origin, req, Completed, now);
      var o2 := Handle(o1.node, imageServer, origin2, req2, transfer2, now2);
      && o1.reply.Reply? && o1.reply.headers["X-Cache"] == "MISS"
      && o2.reply.Reply? && o2.reply.headers["X-Cache"] == "HIT"
      && o2.reply.body == o1.reply.body
      && o2.trace == [CacheGet(KeyOf(req))]
      && o2.node.cache == o1.node.cache
  {
    var o1 := Handle(node, imageServer, origin, req, Completed, now);
    MissFetchesAndStores(node, imageServer, origin, req, now);
    HitServesCachedBytes(o1.node, imageServer, origin2, req2, transfer2, now2);
  }

  /** Every cached entry is the origin's complete body for that key. */
  ghost predicate Coherent(cache: Cache, imageServer: string, origin: Origin) {
    forall k :: k in cache ==> origin(imageServer + k) == Some(cache[k])
  }

  /** Handling any request keeps the cache coherent with a fixed origin. */
  lemma {:induction false} HandlePreservesCoherence(node: Node, imageServer: string, origin: Origin, req: Request, transfer: Transfer, now: int)
    requires Coherent(node.cache, imageServer, origin)
    ensures Coherent(Handle(node, imageServer, origin, req, transfer, now).node.cache, imageServer, origin)
  {
    var o := Handle(node, imageServer, origin, req, transfer, now);
    if Dispatched(req) && KeyOf(req) !in node.cache {
      var key := KeyOf(req);
      match origin(imageServer + key)
      case None =>
      case Some(body) =>
        forall k | k in o.node.cache
          ensures origin(imageServer + k) == Some(o.node.cache[k])
        {
          if k != key {
            assert k in node.cache;
          }
        }
    }
  }

  /** The store as written does not keep the cache coherent: a cut-short copy breaks it. */
  lemma AsWrittenBreaksCoherence()
    ensures var body: seq<byte> := [1, 2, 3];
      var origin: Origin := (url: string) => Some(body);
      && Coherent(map[], "", origin)
      && !Coherent(MissStoreAsWritten(map[], "/k", [1, 2, 3], Interrupted(1)), "", origin)
  {
    var body: seq<byte> := [1, 2, 3];
    var origin: Origin := (url: string) => Some(body);
    var c := MissStoreAsWritten(map[], "/k", [1, 2, 3], Interrupted(1));
    assert c["/k"] == [1];
    assert origin("" + "/k") == Some([1, 2, 3]);
  }

  /**
    While the cache is coherent, every complete 200 reply carries exactly the
    origin's body for the key, whether it was a hit or a miss; so any number of
    requests for one key, in any order, all deliver the same bytes.
   */
  lemma {:induction false} CompleteRepliesAgreeWithOrigin(node: Node, imageServer: string, origin: Origin, req: Request, now: int)
    requires Coherent(node.cache, imageServer, origin)
    requires Dispatched(req)
    ensures var o := Handle(node, imageServer, origin, req, Completed, now);
      o.reply.Reply? ==> Some(o.reply.body) == origin(imageServer + KeyOf(req))
  {
    if KeyOf(req) in node.cache {
      assert origin(imageServer + KeyOf(req)) == Some(node.cache[KeyOf(req)]);
    }
  }
}

=== FILE: settings.dfy ===
/**
  Client settings and their validation (internal/mdathome/utils.go:28-54, with
  the defaults of main.go:26-34).  Reading and decoding settings.json is I/O;
  the file is seen here as the record it decodes to, or as unreadable/malformed.
 */
module Settings {
  import opened Wrappers

  datatype ClientSettings = ClientSettings(
    clientSecret: string,
    cacheDirectory: string,
    clientPort: int,
    maxKilobitsPerSecond: int,
    maxCacheSizeInMebibytes: int,
    maxReportedSizeInMebibytes: int,
    gracefulShutdownInSeconds: int,
    cacheScanIntervalInSeconds: int,
    cacheRefreshAgeInSeconds: int)

  /** The initial value of the settings before any file is read; fields not listed in the source are Go zero values. */
  const DefaultSettings: ClientSettings := ClientSettings(
    clientSecret := "",
    cacheDirectory := "cache/",
    clientPort := 44300,
    maxKilobitsPerSecond := 10000,
    maxCacheSizeInMebibytes := 1024,
    maxReportedSizeInMebibytes := 1024,
    gracefulShutdownInSeconds := 60,
    cacheScanIntervalInSeconds := 60,
    cacheRefreshAgeInSeconds := 0)

  /** What reading settings.json yields. */
  datatype SettingsFile =
    | Unreadable
    | Malformed
    | Parsed(settings: ClientSettings)

  /** Why loading stops the process (every case is a log.Fatalf). */
  datatype SettingsError =
    | MissingFile
    | BadJson
    | EmptySecret
    | EmptyCacheDirectory

  /** The two required fields are filled in. */
  predicate IsUsable(s: ClientSettings) {
    s.clientSecret != "" && s.cacheDirectory != ""
  }

  /** The checks of utils.go:43-50: secret first, then cache directory. */
  function Validate(s: ClientSettings): (r: Result<ClientSettings, SettingsError>)
    ensures r.Success? <==> IsUsable(s)
    ensures r.Success? ==> r.value == s
    ensures s.clientSecret == "" ==> r == Failure(EmptySecret)
    ensures s.clientSecret != "" && s.cacheDirectory == "" ==> r == Failure(EmptyCacheDirectory)
  {
    if s.clientSecret == "" then Failure(EmptySecret)
    else if s.cacheDirectory == "" then Failure(EmptyCacheDirectory)
    else Success(s)
  }

  /** loadClientSettings: read, decode, validate. */
  function Load(file: SettingsFile): (r: Result<ClientSettings, SettingsError>)
    ensures r.Success? <==> file.Parsed? && IsUsable(file.settings)
    ensures r.Success? ==> r.value == file.settings
    ensures file.Unreadable? ==> r == Failure(MissingFile)
    ensures file.Malformed? ==> r == Failure(BadJson)
  {
    match file
    case Unreadable => Failure(MissingFile)
    case Malformed => Failure(BadJson)
    case Parsed(s) => Validate(s)
  }

  /**
    main.go's default values have an empty secret, so the validating loader
    refuses a file that leaves them in place; main.go's own loader, which
    does not validate, accepts them.
   */
  lemma DefaultsNeedSecret()
    ensures Load(Parsed(DefaultSettings)) == Failure(EmptySecret)
  {
  }
}

=== FILE: wrappers.dfy ===
/** Failure-carrying values shared by the other modules. */
module Wrappers {

  /** A value that may be absent: a Go nil pointer, a missing header, a failed fetch. */
  datatype Option<+T> = None | Some(value: T)

  /** Either a value or the reason the operation could not produce one. */
  datatype Result<+R, +E> = Success(value: R) | Failure(error: E)
}
